=== FILE: README.md ===
# SkyBlog client: session, gateway and page logic in Dafny

This project models the logic underneath the SkyBlog single-page client (a React
application with login, registration, token refresh and a posts feed). The model
has no rendering. Each piece of logic becomes a pure function over explicit
state, and every HTTP outcome is an input.

- **Gateway** (`gateway.dfy`): the axios instance and its two interceptors.
  - The request interceptor attaches `Authorization: Bearer <token>` from the local store.
  - The response interceptor handles a first 401 with one refresh. It posts the refresh
    with bare axios, so the refresh bypasses the interceptors.
  - On success it stores both new tokens, sets the instance default header and replays
    the request once.
  - On failure it clears the whole store and rejects with the refresh error.
  - A server is a pair of functions: the API (request config to reply) and the refresh
    endpoint (refresh token to reply). `Dispatch` returns every config sent and every
    refresh token posted, so the model can state the send and refresh bounds.
  - The instance default header (`api.defaults.headers.common`) is kept as the state
    field `Client.defaultAuth`.
- **Session lifecycle** (`auth_context.dfy`): `initializeAuth`, `login`, `register`,
  `logout` and `isAuthenticated` as transitions on the store, user, loading flag and
  error. The code sends all of these calls through the gateway, and the model does too.
- **Forms**: registration validation and submission (`register_page.dfy`), the shared
  e-mail pattern (`email_rule.dfy`), and the password-reset form (`forget_password.dfy`).
- **Posts page** (`posts_filter.dfy`, `posts_page.dfy`): the case-insensitive search
  filter, the create/update/delete/comment handlers with their guards, the
  single-open comment panel, per-post drafts and the owner-only controls.
- **Route guard** (`protected_route.dfy`): loading view, the children, or a
  replacing redirect to `/login`.
- **Helpers**: JavaScript values (truthiness, `||`, property access and optional
  chaining, `String()`) in `js_value.dfy`. String primitives (`trim`, `toLowerCase`,
  `includes`, UTF-16 `length`, the `\s` class) in `js_string.dfy`. `localStorage`
  in `storage.dfy`. The HTTP vocabulary in `http.dfy`.

Four behaviours of the code shape the model:

- `login`, `register`, `logout` and the profile check go through the refreshing
  gateway like every other call, so a 401 on any of them starts a refresh
  (see Findings).
- A 2xx profile response without `data` keeps the token in the store while the
  user is undefined (`AuthFacts.BootCanKeepTokenWithoutUser`).
- Concurrent 401s each start their own refresh; nothing coalesces them. The
  model handles one request at a time.
- A failed refresh wipes the store, but only `initializeAuth`, `login`,
  `register` and `logout` set the context's `user`. After a failed refresh the
  session therefore stays authenticated without a token, and the route guard
  keeps rendering the protected page (`ProtectedRoute.FailedRefreshKeepsPage`).

## Model

| member | source | states |
|---|---|---|
| Gateway.Attach | src/api/index.jsx:10-14 | With a non-empty stored token, the request gets `Authorization: Bearer <token>` and nothing else changes. Without one, the config is returned untouched. |
| Gateway.AttachIdempotent | src/api/index.jsx:10-14 | Attaching twice under the same store gives the same config as attaching once. |
| Gateway.RefreshOutcome | src/api/index.jsx:24-29 | The refresh succeeds exactly on a 2xx reply whose body has a readable `data.access_token`, and then resolves with that access token and `data.refresh_token`. A 2xx reply whose body, or whose `data`, is null or undefined fails with a TypeError; a primitive `data` reads `undefined` fields and throws nothing. Any other failure is the refresh call's own error. |
| Gateway.Dispatch | src/api/index.jsx:16-40 | A logical request is sent once or twice and refreshed at most once. A success, any non-401 error, or a 401 on a retried request passes through unchanged, with no store change. A first 401 posts the stored refresh token exactly once. If the refresh fails, the store is emptied, the refresh error is rejected and nothing is replayed. If it succeeds, both tokens and the default header take the new pair, the request is replayed once with `_retry` set and the new bearer, and the replay's outcome is the result. |
| GatewayFacts.StaleDefaultSurvivesWipe | src/api/index.jsx:28-35 | After one successful refresh and a later failed refresh, the store is empty but the default header still carries the first new access token. |
| GatewayFacts.RetriedIsTerminal | src/api/index.jsx:20-38 | A request already marked `_retry` is sent once, triggers no refresh and leaves the client unchanged. |
| Storage.Clear | src/api/index.jsx:34 | After `clear()`, no key is present. |
| AuthContext.InitializeAuth | src/context/AuthContext.jsx:11-24 | With no usable stored token, there is no profile call and only `loading` changes. With a token, exactly one profile call goes through the gateway. On failure, or on an unreadable body, the store is emptied and the user kept. On success, the user is the body's `data`. `loading` always ends false. |
| AuthContext.Login | src/context/AuthContext.jsx:30-42 | The promise always resolves. Success holds exactly when the call resolved with readable `data`. It then stores `access_token` as `token` plus `refresh_token`, sets the user, and leaves the default header as the call left it. On failure the user is kept, and `error` is the server message or 'Login failed'. The store is unchanged unless the login request itself drew a 401. |
| AuthContext.Register | src/context/AuthContext.jsx:44-56 | Like login, but the token is read from the `token` field and the fallback is 'Registration failed'. The promise never rejects. |
| AuthContext.IsAuthenticated | src/context/AuthContext.jsx:70 | Holds exactly when `user` is truthy: any user object counts, while `null`, `undefined`, `false`, `0` and `""` do not. So the undefined user a bootstrap can leave behind is anonymous. |
| AuthContext.Logout | src/context/AuthContext.jsx:58-67 | Whatever the server answers, the store ends empty, the user null and the session unauthenticated. Loading and error are untouched. |
| AuthFacts.LoginAuthorizesNextRequest | src/context/AuthContext.jsx:32-35 | After a successful login, the next request carries `Bearer <access_token>`, unless that token is empty, in which case it goes out unchanged. |
| AuthFacts.RegisterAuthorizesNextRequest | src/context/AuthContext.jsx:46-49 | After a successful registration, the next request carries `Bearer <token>`, unless that token is empty. |
| AuthFacts.LogoutIdempotent | src/context/AuthContext.jsx:58-67 | A second logout leaves the same store, user, loading flag and error as the first. |
| AuthFacts.BootWithoutTokenIsAnonymous | src/context/AuthContext.jsx:11-23 | Bootstrap over an empty store makes no call, leaves the session unauthenticated and ends not loading. |
| AuthFacts.BootCanKeepTokenWithoutUser | src/context/AuthContext.jsx:14-17 | A 2xx profile response without `data` keeps the token while the user is undefined. |
| AuthFacts.LoginUnauthorizedReportsRefreshError | src/context/AuthContext.jsx:30-41 | As written, a wrong-credentials 401 on login posts the stored refresh token. When that refresh fails, the store is wiped and the refresh endpoint's message is reported. |
| AuthFacts.LoginExempt | src/context/AuthContext.jsx:30-41 | Login with its request exempt from the refresh protocol. It makes no refresh and sends once. A failure keeps the store and user, and reports the login reply's own message or 'Login failed'. |
| AuthFacts.LoginExemptReportsLoginError | src/context/AuthContext.jsx:37-40 | With the exemption, the same scenario keeps the stored session and reports 'Invalid credentials'. |
| AuthFacts.LogoutCanLeaveFreshDefault | src/context/AuthContext.jsx:58-66 | A logout whose call draws a 401 and a successful refresh ends with an empty store while the default header holds the fresh token. |
| ProtectedRoute.Gate | src/components/protectedRoute.jsx:4-12 | While loading, the result is the loading view whatever the authentication. When not loading, the children render exactly when authenticated. Otherwise the guard redirects to '/login' with `replace`. |
| ProtectedRoute.FailedRefreshKeepsPage | src/api/index.jsx:20-36 | For every authenticated, loaded session and every request that draws a first 401 whose refresh fails, the gateway empties the store and rejects, yet the session with that client is still authenticated and the guard still renders the protected page. |
| ProtectedRoute.GateAfterBootAndLogout | src/components/protectedRoute.jsx:7-11 | After bootstrap the guard never shows the loading view. After a logout it redirects to '/login'. |
| EmailRule.IndexOfAt | src/Pages/Register.jsx:50-51 | Returns the position of the first `@`, or the length when there is none. |
| EmailRule.RegexImpliesIsEmail | src/Pages/Register.jsx:50-51 | A string matched by `^[^\s@]+@[^\s@]+\.[^\s@]+$` has no white space and exactly one `@`, with a non-empty part before it. Its domain holds a `.` that is neither first nor last. |
| EmailRule.IsEmailImpliesRegex | src/Pages/Register.jsx:50-51 | The converse: every string with that positional description is matched by the pattern. |
| EmailRule.IsEmailIffRegex | src/Pages/Register.jsx:50-51 | The positional description and the pattern accept the same strings. |
| JsString.TrimStart | src/Pages/Register.jsx:42 | Drops exactly the maximal white-space prefix. |
| JsString.TrimEnd | src/Pages/Register.jsx:42 | Drops exactly the maximal white-space suffix. |
| JsString.TrimEmptyIffBlank | src/Pages/Register.jsx:42-46 | `!s.trim()` holds exactly for strings made only of white space. |
| JsString.TrimIsInfix | src/Pages/Posts.jsx:169 | The trimmed string is an infix framed by white space, and starts and ends with a non-space character. |
| JsString.Utf16Length | src/Pages/Register.jsx:58 | `length` counts UTF-16 code units, between one and two per character. |
| RegisterPage.Validate | src/Pages/Register.jsx:39-70 | Each field gets at most one message, in the source's precedence. The name error holds exactly for a blank name. 'Email address is required' holds for a blank e-mail; 'Enter a valid email address' holds for a non-blank e-mail the pattern rejects. The password gets 'required' when empty and 'at least 8 characters' when non-empty and under 8 UTF-16 units; it is never trimmed. The confirmation gets 'Please confirm your password' when empty and 'Passwords do not match' when it differs from the password. |
| RegisterPage.ValidateAcceptsExactly | src/Pages/Register.jsx:39-70 | `validate()` returns true exactly when the name is not blank, the pattern matches the e-mail, the password has at least 8 units and the confirmation equals it. |
| RegisterPage.HandleSubmit | src/Pages/Register.jsx:72-94 | An invalid form makes no `register` call and does not navigate. A valid form calls `register` once with name, email, password and password_confirmation. It then always navigates to '/' with no server error shown. |
| RegisterPage.SubmitNavigatesDespiteRefusal | src/Pages/Register.jsx:79-89 | For every valid form, a server refusal with a message still navigates to '/' and shows no error. The refusal reaches the page only as a resolved failure. |
| RegisterPage.HandleSubmitChecked | src/Pages/Register.jsx:72-94 | The corrected handler navigates exactly when `register` reports success. On failure it stays and shows the message. |
| ForgetPassword.HandleSubmit | src/Pages/ForgetPassword.jsx:18-56 | An e-mail the pattern rejects, the empty one included, gets 'Please enter a valid email address.' and no request. An ok reply always gets the fixed success message with type 'success'. A refusal gets the server message or the fallback, with type 'error'. An exception gets 'Server error. Please try again later.' `loading` ends false on every path. |
| ForgetPassword.SameRuleAsRegistration | src/Pages/ForgetPassword.jsx:24 | This form refuses an address exactly when registration's validation reports an e-mail error. |
| PostsFilter.Filter | src/Pages/Posts.jsx:89-92 | Every kept post matches the search and comes from the feed. |
| PostsFilter.Shift | src/Pages/Posts.jsx:89-92 | Positions in the feed's tail, shifted by one, embed the same posts in the whole feed, in order. |
| PostsFilter.FilterPositions | src/Pages/Posts.jsx:89-92 | The kept posts sit at strictly increasing positions of the feed. |
| PostsFilter.FilterIsSubsequence | src/Pages/Posts.jsx:89-92 | The filter result is an order-preserving subsequence of the feed. |
| PostsFilter.FilterCounts | src/Pages/Posts.jsx:89-92 | A post occurs in the result as often as in the feed when its lower-cased title or content includes the lower-cased term, and never otherwise. |
| PostsFilter.FilterEmptySearch | src/Pages/Posts.jsx:89-92 | An empty search keeps the whole feed, in order. |
| PostsFilter.FilterAppend | src/Pages/Posts.jsx:89-92 | Filtering a concatenation is concatenating the filtered parts. |
| PostsFilter.FilterIdempotent | src/Pages/Posts.jsx:89-92 | Filtering again with the same term changes nothing. |
| PostsFilter.FilterIgnoresCase | src/Pages/Posts.jsx:89-92 | Lower-casing the term first changes nothing. |
| PostsPage.Fetch | src/Pages/Posts.jsx:71-82 | Fetching never rejects and always ends not loading. A listing replaces the posts and clears the error. A failure keeps the posts and shows 'Failed to fetch posts'. |
| PostsPage.HandleCreate | src/Pages/Posts.jsx:101-110 | A blank title or blank content means no request and no change. Otherwise the untrimmed draft is posted. On success the dialog closes, the draft resets to "" and the feed is refetched; the update dialog, delete prompt and comments are untouched. On failure the error is shown and the draft is kept. |
| PostsPage.HandleUpdate | src/Pages/Posts.jsx:123-141 | With no selected post, nothing happens. With unchanged title and content, the dialog closes without a request. Otherwise it sends PUT for the selected id with both fields. Success closes the dialog, keeps the edited fields and refetches, touching nothing else; failure shows the error. |
| PostsPage.CloseUpdate | src/Pages/Posts.jsx:119-122 | Closes the dialog and deselects the post, keeping the edited fields; nothing else changes. |
| PostsPage.CancelDelete | src/Pages/Posts.jsx:158-161 | The prompt closes and forgets its id. Nothing else changes. |
| PostsPage.HandleDelete | src/Pages/Posts.jsx:148-157 | Sends DELETE for the prompt's id, `null` included. Success closes the prompt, clears the id and refetches, touching nothing else. Failure shows the error and keeps the prompt. |
| PostsPage.ToggleComments | src/Pages/Posts.jsx:164-165 | Toggling the open post closes it. Toggling any other post opens that one, and only one id is held. |
| PostsPage.ToggleTwice | src/Pages/Posts.jsx:164-165 | Toggling the same post twice restores a closed or own panel. Toggling another post leaves that post open. |
| PostsPage.ChangeComment | src/Pages/Posts.jsx:166-167 | Only the edited post's draft changes. |
| PostsPage.DraftText | src/Pages/Posts.jsx:169-170 | A post without a draft yields nothing. Otherwise the result is the trimmed draft, empty exactly when the draft is blank. |
| PostsPage.HandleAddComment | src/Pages/Posts.jsx:168-178 | A missing or blank draft sends nothing. Otherwise the trimmed text is sent. On success only that post's draft is cleared and the feed is refetched; the open panel and the dialogs are untouched. On failure the error is shown and every draft is kept. |
| PostsPage.SentCommentIsTrimmedDraft | src/Pages/Posts.jsx:169-172 | The sent comment is non-empty. It is the draft's infix without surrounding white space. |
| PostsPage.FirstFetchShowsListing | src/Pages/Posts.jsx:47-92 | Starting from the first render (no posts, loading, empty search), a listing is shown in full with no error; a failed listing shows nothing and 'Failed to fetch posts'. Loading ends false either way. |
| PostsPage.CreateTwiceSendsOnce | src/Pages/Posts.jsx:96-110 | After a successful create the draft is empty, and after a suppressed one it was blank, so submitting again sends nothing and changes nothing. |
| PostsPage.UnchangedUpdateSendsNothing | src/Pages/Posts.jsx:113-130 | Opening the update dialog on a post and submitting it unedited closes the dialog with no request. |
| PostsPage.EditedUpdateTargetsOpenedPost | src/Pages/Posts.jsx:113-141 | After opening the dialog on a post and changing a field, the PUT goes to that post's id with the edited fields; after success no post is selected, so a second submit does nothing. |
| PostsPage.CancelForgetsPrompt | src/Pages/Posts.jsx:144-161 | Prompting for a delete and then cancelling leaves the page as cancelling alone does. |
| PostsPage.ConfirmDeletesPrompted | src/Pages/Posts.jsx:144-157 | Confirming a prompted delete sends DELETE for that id, then a refetch, and leaves the prompt as cancelling does. |
| PostsPage.ChangeThenDraftText | src/Pages/Posts.jsx:166-169 | After typing into a post's comment field, its draft reads back as the typed text trimmed, and every other post's draft reads as before. |
| PostsPage.TypedCommentIsSent | src/Pages/Posts.jsx:166-172 | A non-blank typed comment is what `handleAddComment` sends for that post, trimmed. |
| PostsPage.ShowsOwnerControls | src/Pages/Posts.jsx:283 | Edit and delete show exactly when `post.user_id` equals the user's id. With no user, a primitive user, or a user object without an id, `user?.id` is `undefined`, so they show exactly for posts without `user_id`. An object-valued id matches no post. |
| PostsPage.LoggedOutOwnerControls | src/Pages/Posts.jsx:283 | After `logout` the user is `null`, so the controls show exactly on posts without `user_id`. |

## Findings

| source | as written | input that shows it | evidently intended | confidence | as-written member | corrected member |
|---|---|---|---|---|---|---|
| src/context/AuthContext.jsx:30-41 | `login` posts through the refreshing gateway. A 401 for wrong credentials therefore triggers a refresh with the stored refresh token. A failed refresh wipes the store, and `login` reports the refresh endpoint's message. | Store holds `token=old, refresh_token=r0`. Login answers 401 "Invalid credentials"; refresh answers 401 "Token expired". Result: `{success:false, error:"Token expired"}` and an empty store. | `login`'s own `catch` reports `error.response?.data?.message`, falling back to 'Login failed', so a failed login is meant to report the login reply's message. That requires the login request to skip the refresh, which also keeps the store. | not executed; medium | AuthFacts.LoginUnauthorizedReportsRefreshError | AuthFacts.LoginExempt |
| src/Pages/Register.jsx:79-89 | `handleSubmit` awaits `register`, which never rejects, and then navigates to '/' unconditionally. The `catch` that would show the server's error is dead. | Any valid form, with the server answering 422 "Email taken". The page navigates to '/' with no error shown. | The page's `catch` at lines 86-90 sets the server's message, so a refused registration is meant to stay on the page and show it: navigate only when `register` reports success. | not executed; high | RegisterPage.SubmitNavigatesDespiteRefusal | RegisterPage.HandleSubmitChecked |

## Left out

- Rendering (JSX, MUI components, icons, styling) and date formatting are not modelled, because they compute no state.
- The transport (axios, `fetch`, `response.json()`) is not modelled: every answer is an input, and `localStorage` is a `map<string, string>`.
- Concurrent requests are not modelled: the model handles one request at a time, so refresh races between concurrent 401s are not modelled, nor is a losing refresh wiping the store that a winning one just wrote. Each handler runs atomically: React state batching and effect scheduling are not modelled.
- Gateway.Dispatch: outgoing headers are what the interceptors set. How axios merges the instance default header into a request is not modelled; the default is only tracked as state.
- AuthFacts.LogoutIdempotent: states equality of store, user, loading and error, not of the default header. A second logout's call can refresh and change that header.
- AuthContext.Login: the store is promised unchanged on failure only when the login request did not draw a 401, because the code routes login through the refresh protocol (see Findings).
- PostsPage: the handlers take each request's outcome as a bool or a listing and carry no `Client`. The page's requests go through the same gateway (Posts.jsx:74, 104, 132, 150, 172), so they can also refresh the tokens or wipe the store; the model does not carry those store writes. The gateway-level effect is stated once, in `Gateway.Dispatch` and `ProtectedRoute.FailedRefreshKeepsPage`.
- PostsFilter.Filter: `toLowerCase` is modelled for ASCII letters only; the full Unicode case mapping is not modelled.
- JsValue: arrays, floating-point numbers, object identity and the `length` of strings as a property are not modelled, because the modelled logic never reads them. `===` treats two objects as distinct.
- `setSearch`, `openCreateDialog`, `closeCreateDialog`, `openUpdateDialog` and `promptDelete` are plain state setters and carry no contract of their own. The last two appear in the lemmas about the update and delete flows.
- The posts list from `GET /posts` is taken as a sequence of posts; a body of any other shape is not modelled.
- `console.error` logging and the 100 ms delay in the login page are not modelled.
- src/Pages/Login.jsx, src/Pages/Home.jsx, src/components/Navbar.jsx, src/api/posts/posts.jsx, src/components/Posts/PostForm.jsx, src/App.jsx and vite.config.js are not part of this model. They are UI glue or configuration over the modelled operations.
- A storage quota failure in `localStorage.setItem` is not modelled. Such a failure would be caught by `login` or `register` and resolve as a failure after a partial write.

=== FILE: auth_context.dfy ===
/** The session lifecycle held by the authentication context: the user, the
    loading flag and the last error, next to the gateway's client state. Every
    server call goes through the gateway, profile, login, register and logout
    alike. */
module AuthContext {
  import opened Options
  import opened JsValue
  import opened Http
  import opened Gateway
  import Storage

  /** `user`, `loading` and `error` are the provider's React state; `client`
      is the local store and the instance default header the gateway keeps. */
  datatype Session = Session(client: Client, user: Json, loading: bool, error: Json)

  /** What `login` and `register` resolve with: `{success: true}` or
      `{success: false, error: msg}`. */
  datatype AuthResult = Succeeded | Failed(message: Json)

  /** A call of `login` or `register`: the session afterwards, how its promise
      settled, and the exchange with the gateway it made. */
  datatype AuthStep = AuthStep(session: Session, settled: Settled<AuthResult>, call: Exchange)

  /** `initializeAuth`: the session afterwards and the profile call, if one was made. */
  datatype Boot = Boot(session: Session, profile: Option<Exchange>)

  /** The token pair and user a login or register response grants. */
  datatype Grant = Grant(access: string, refresh: string, user: Json)

  /** The provider as first mounted over a given store. */
  function Mount(st: Storage.Store): Session {
    Session(Client(st, None), Null, true, Null)
  }

  /** `isAuthenticated: !!user`: truthiness, not merely "not null", so the
      `undefined` user a bootstrap can leave behind counts as anonymous. */
  function IsAuthenticated(s: Session): (r: bool)
    ensures s.user.Obj? ==> r
    ensures Nullish(s.user) ==> !r
    ensures s.user.Bool? ==> (r <==> s.user.b)
    ensures s.user.Num? ==> (r <==> s.user.n != 0)
    ensures s.user.Str? ==> (r <==> s.user.s != "")
  {
    Truthy(s.user)
  }

  function Request(verb: string, url: string, body: Json): Config {
    Config(verb, url, body, map[], false)
  }

  const ProfileRequest: Config := Request("get", "/auth/user-profile", Undefined)
  const LogoutRequest: Config := Request("post", "/auth/logout", Undefined)

  function LoginRequest(credentials: Json): Config {
    Request("post", "/auth/login", credentials)
  }

  function RegisterRequest(userData: Json): Config {
    Request("post", "/auth/register", userData)
  }

  /** Reads `data.data.<tokenField>`, `data.data.refresh_token` and
      `data.data.user` of a response body; `None` is the TypeError thrown when
      the body, or its `data`, is null or undefined, before anything is stored. */
  function ReadGrant(body: Json, tokenField: string): Option<Grant> {
    match Prop(body, "data")
    case None => None
    case Some(d) =>
      match Prop(d, tokenField)
      case None => None
      case Some(tok) => Some(Grant(ToStr(tok), ToStr(OptProp(d, "refresh_token")), OptProp(d, "user")))
  }

  function Store(c: Client, g: Grant): Client {
    c.(store := c.store[Storage.TokenKey := g.access][Storage.RefreshKey := g.refresh])
  }

  /** `initializeAuth`: a stored token is checked against the profile endpoint. */
  function InitializeAuth(s: Session, net: Net): (r: Boot)
    ensures !r.session.loading
    ensures r.session.error == s.error
    // No stored token: no profile call and nothing else changes.
    ensures !Storage.HasItem(s.client.store, Storage.TokenKey) ==>
      r.profile == None && r.session == s.(loading := false)
    // A stored token: exactly one profile call, through the gateway.
    ensures Storage.HasItem(s.client.store, Storage.TokenKey) ==>
      r.profile == Some(Dispatch(s.client, ProfileRequest, net))
    // The profile call failed, or its body could not be read: the store is wiped.
    ensures r.profile.Some? && (r.profile.value.outcome.Rejected? || Prop(r.profile.value.outcome.value.data, "data").None?) ==>
      r.session.client == Client(map[], r.profile.value.client.defaultAuth) && r.session.user == s.user
    // The profile call succeeded: the user is its `data` and the store is the gateway's.
    ensures r.profile.Some? && r.profile.value.outcome.Resolved? && Prop(r.profile.value.outcome.value.data, "data").Some? ==>
      r.session.client == r.profile.value.client && r.session.user == Prop(r.profile.value.outcome.value.data, "data").value
  {
    if !Storage.HasItem(s.client.store, Storage.TokenKey) then
      Boot(s.(loading := false), None)
    else
      var x := Dispatch(s.client, ProfileRequest, net);
      var wiped := s.(client := x.client.(store := Storage.Clear(x.client.store)), loading := false);
      match x.outcome
      case Rejected(_) => Boot(wiped, Some(x))
      case Resolved(resp) =>
        match Prop(resp.data, "data")
        case None => Boot(wiped, Some(x))
        case Some(u) => Boot(s.(client := x.client, user := u, loading := false), Some(x))
  }

  /** The `catch` of `login` and `register`: the server's message or the fallback
      becomes the error, and the promise still resolves. */
  function Fail(s: Session, x: Exchange, e: Failure, fallback: string): AuthStep {
    var msg := Or(ErrorMessage(e), Str(fallback));
    AuthStep(s.(client := x.client, error := msg), Resolved(Failed(msg)), x)
  }

  /** Shared body of `login` and `register`, which differ only in the request and
      the field the access token is read from. */
  function Authenticate(s: Session, req: Config, tokenField: string, fallback: string, net: Net): AuthStep {
    var x := Dispatch(s.client, req, net);
    match x.outcome
    case Rejected(e) => Fail(s, x, e, fallback)
    case Resolved(resp) =>
      match ReadGrant(resp.data, tokenField)
      case None => Fail(s, x, TypeFailure, fallback)
      case Some(g) => AuthStep(s.(client := Store(x.client, g), user := g.user), Resolved(Succeeded), x)
  }

  /** `login(credentials)`. */
  function Login(s: Session, credentials: Json, net: Net): (r: AuthStep)
    ensures r.call == Dispatch(s.client, LoginRequest(credentials), net)
    ensures r.settled.Resolved?
    ensures r.session.loading == s.loading
    // Success exactly when the call resolved with a readable body; then the
    // `access_token` field is stored as `token`, with the refresh token and user.
    ensures r.settled.value.Succeeded? <==>
      r.call.outcome.Resolved? && ReadGrant(r.call.outcome.value.data, "access_token").Some?
    ensures r.settled.value.Succeeded? ==>
      var g := ReadGrant(r.call.outcome.value.data, "access_token").value;
      && r.session.client.store == r.call.client.store[Storage.TokenKey := g.access][Storage.RefreshKey := g.refresh]
      && r.session.client.defaultAuth == r.call.client.defaultAuth
      && r.session.user == g.user && r.session.error == s.error
    // Failure: the user is kept, the error is the server's message or 'Login failed'.
    ensures r.settled.value.Failed? ==>
      && r.session.user == s.user
      && r.session.error == r.settled.value.message
      && Truthy(r.settled.value.message)
      && r.session.client == r.call.client
      && (r.call.outcome.Rejected? && Truthy(ErrorMessage(r.call.outcome.reason)) ==>
            r.settled.value.message == ErrorMessage(r.call.outcome.reason))
      && (r.call.outcome.Resolved? || !Truthy(ErrorMessage(r.call.outcome.reason)) ==>
            r.settled.value.message == Str("Login failed"))
    // Unless the login request itself drew a 401, a failure leaves the store alone.
    ensures r.settled.value.Failed? && !RefreshesOn(LoginRequest(credentials), net.api(r.call.sent[0])) ==>
      r.session.client == s.client
  {
    Authenticate(s, LoginRequest(credentials), "access_token", "Login failed", net)
  }

  /** `register(userData)`. */
  function Register(s: Session, userData: Json, net: Net): (r: AuthStep)
    ensures r.call == Dispatch(s.client, RegisterRequest(userData), net)
    // `register` never rejects: every server failure is caught and resolved.
    ensures r.settled.Resolved?
    ensures r.session.loading == s.loading
    // The token is read from the `token` field, not `access_token`.
    ensures r.settled.value.Succeeded? <==>
      r.call.outcome.Resolved? && ReadGrant(r.call.outcome.value.data, "token").Some?
    ensures r.settled.value.Succeeded? ==>
      var g := ReadGrant(r.call.outcome.value.data, "token").value;
      && r.session.client.store == r.call.client.store[Storage.TokenKey := g.access][Storage.RefreshKey := g.refresh]
      && r.session.client.defaultAuth == r.call.client.defaultAuth
      && r.session.user == g.user && r.session.error == s.error
    ensures r.settled.value.Failed? ==>
      && r.session.user == s.user
      && r.session.error == r.settled.value.message
      && Truthy(r.settled.value.message)
      && r.session.client == r.call.client
      && (r.call.outcome.Rejected? && Truthy(ErrorMessage(r.call.outcome.reason)) ==>
            r.settled.value.message == ErrorMessage(r.call.outcome.reason))
      && (r.call.outcome.Resolved? || !Truthy(ErrorMessage(r.call.outcome.reason)) ==>
            r.settled.value.message == Str("Registration failed"))
  {
    Authenticate(s, RegisterRequest(userData), "token", "Registration failed", net)
  }

  /** `logout()`: the server call is best effort; the `finally` always wipes. */
  function Logout(s: Session, net: Net): (r: Session)
    ensures r.client.store == map[] && r.user == Null
    ensures !IsAuthenticated(r)
    ensures r.loading == s.loading && r.error == s.error
    ensures r.client.defaultAuth == Dispatch(s.client, LogoutRequest, net).client.defaultAuth
  {
    var x := Dispatch(s.client, LogoutRequest, net);
    s.(client := x.client.(store := Storage.Clear(x.client.store)), user := Null)
  }
}

/** Properties of the session lifecycle across several calls. */
module AuthFacts {
  import opened Options
  import opened JsValue
  import opened Http
  import opened Gateway
  import opened AuthContext
  import Storage

  /** Logging out twice leaves the same store, user, loading flag and error as
      logging out once, whatever the server answers either time. */
  lemma LogoutIdempotent(s: Session, net1: Net, net2: Net)
    ensures var once := Logout(s, net1);
      var twice := Logout(once, net2);
      twice.client.store == once.client.store && twice.user == once.user
      && twice.loading == once.loading && twice.error == once.error
  {
  }

  /** After a successful login, the request interceptor puts `Bearer <access>`
      on the next request, unless the server handed out an empty access token,
      which `if (token)` skips. */
  lemma LoginAuthorizesNextRequest(s: Session, credentials: Json, net: Net, cfg: Config)
    requires Login(s, credentials, net).settled.value.Succeeded?
    ensures var r := Login(s, credentials, net);
      var g := ReadGrant(r.call.outcome.value.data, "access_token").value;
      && (g.access != "" ==> Attach(r.session.client.store, cfg) == cfg.(headers := cfg.headers[AuthHeader := Bearer(g.access)]))
      && (g.access == "" ==> Attach(r.session.client.store, cfg) == cfg)
  {
  }

  /** After a successful registration the session holds the `token` field as
      the access token, so the next request carries it the same way. */
  lemma RegisterAuthorizesNextRequest(s: Session, userData: Json, net: Net, cfg: Config)
    requires Register(s, userData, net).settled.value.Succeeded?
    ensures var r := Register(s, userData, net);
      var g := ReadGrant(r.call.outcome.value.data, "token").value;
      && (g.access != "" ==> Attach(r.session.client.store, cfg) == cfg.(headers := cfg.headers[AuthHeader := Bearer(g.access)]))
      && (g.access == "" ==> Attach(r.session.client.store, cfg) == cfg)
  {
  }

  /** Bootstrap over an empty store makes no call and ends anonymous and not loading. */
  lemma BootWithoutTokenIsAnonymous(net: Net)
    ensures var b := InitializeAuth(Mount(map[]), net);
      b.profile == None && !IsAuthenticated(b.session) && !b.session.loading
  {
  }

  /** A profile response without a `data` field still resolves: bootstrap keeps
      the stored token and leaves `user` undefined, so a token can rest in the
      store while the session is anonymous. */
  lemma BootCanKeepTokenWithoutUser()
    ensures var s := Mount(map[Storage.TokenKey := "t"]);
      var b := InitializeAuth(s, Net(cfg => Answered(Response(200, Obj(map[]))), rt => NoAnswer));
      && Storage.HasItem(b.session.client.store, Storage.TokenKey)
      && !IsAuthenticated(b.session) && !b.session.loading
  {
    var s := Mount(map[Storage.TokenKey := "t"]);
    var net := Net(cfg => Answered(Response(200, Obj(map[]))), rt => NoAnswer);
    var x := Dispatch(s.client, ProfileRequest, net);
    assert Storage.HasItem(s.client.store, Storage.TokenKey);
    assert x.outcome == Resolved(Response(200, Obj(map[])));
    assert Prop(Obj(map[]), "data") == Some(Undefined);
  }

  /** A server that answers 401 to every API call and whose refresh endpoint
      rejects every token. */
  function Rejecting(loginMessage: string, refreshMessage: string): Net {
    Net(cfg => Answered(Response(401, Obj(map["message" := Str(loginMessage)]))),
        rt => Answered(Response(401, Obj(map["message" := Str(refreshMessage)]))))
  }

  /** As written, a login with wrong credentials answered by 401 goes through the
      refresh protocol: the stored session of a previous user is wiped and the
      caller sees the refresh endpoint's message, not the login endpoint's. */
  lemma LoginUnauthorizedReportsRefreshError()
    ensures var s := Mount(map[Storage.TokenKey := "old", Storage.RefreshKey := "r0"]);
      var r := Login(s, Obj(map[]), Rejecting("Invalid credentials", "Token expired"));
      && r.settled == Resolved(Failed(Str("Token expired")))
      && r.session.client.store == map[]
      && r.call.refreshes == [Some("r0")]
  {
    var s := Mount(map[Storage.TokenKey := "old", Storage.RefreshKey := "r0"]);
    var net := Rejecting("Invalid credentials", "Token expired");
    var x := Dispatch(s.client, LoginRequest(Obj(map[])), net);
    assert Storage.HasItem(s.client.store, Storage.TokenKey);
    assert RefreshesOn(LoginRequest(Obj(map[])), net.api(x.sent[0]));
    assert Storage.GetItem(s.client.store, Storage.RefreshKey) == Some("r0");
  }

  /** The login request marked as exempt from the refresh protocol, so that a
      401 for wrong credentials reaches `login`'s own `catch`. */
  function ExemptLoginRequest(credentials: Json): Config {
    LoginRequest(credentials).(retry := true)
  }

  /** `login` with the authentication endpoint exempt from the refresh protocol:
      a failed login never refreshes, never touches the store, and reports the
      login endpoint's own message or 'Login failed'. */
  function LoginExempt(s: Session, credentials: Json, net: Net): (r: AuthStep)
    ensures r.settled.Resolved?
    ensures r.call.refreshes == [] && |r.call.sent| == 1 && r.call.client == s.client
    ensures r.call.outcome == Settle(net.api(r.call.sent[0]))
    ensures r.settled.value.Failed? ==>
      && r.session.client == s.client
      && r.session.user == s.user
      && r.settled.value.message ==
           Or(if r.call.outcome.Rejected? then ErrorMessage(r.call.outcome.reason) else Undefined,
              Str("Login failed"))
    ensures r.settled.value.Succeeded? ==>
      && r.call.outcome.Resolved?
      && ReadGrant(r.call.outcome.value.data, "access_token").Some?
      && var g := ReadGrant(r.call.outcome.value.data, "access_token").value;
         r.session.client.store == s.client.store[Storage.TokenKey := g.access][Storage.RefreshKey := g.refresh]
  {
    Authenticate(s, ExemptLoginRequest(credentials), "access_token", "Login failed", net)
  }

  /** With the exemption, the same wrong-credentials login keeps the stored
      session and shows the login endpoint's message. */
  lemma LoginExemptReportsLoginError()
    ensures var s := Mount(map[Storage.TokenKey := "old", Storage.RefreshKey := "r0"]);
      var r := LoginExempt(s, Obj(map[]), Rejecting("Invalid credentials", "Token expired"));
      r.settled == Resolved(Failed(Str("Invalid credentials"))) && r.session.client == s.client
  {
    var s := Mount(map[Storage.TokenKey := "old", Storage.RefreshKey := "r0"]);
    var net := Rejecting("Invalid credentials", "Token expired");
    var x := Dispatch(s.client, ExemptLoginRequest(Obj(map[])), net);
    assert OptProp(Obj(map["message" := Str("Invalid credentials")]), "message") == Str("Invalid credentials");
  }

  /** A server that answers 401 to every API call and whose refresh endpoint
      issues the pair (`fresh`, `r1`). */
  function Refreshing(): Net {
    Net(cfg => Answered(Response(401, Undefined)),
        rt => Answered(Response(200, Obj(map["data" := Obj(map["access_token" := Str("fresh"), "refresh_token" := Str("r1")])]))))
  }

  /** A logout whose server call draws a 401 and a successful refresh ends with an
      empty store, but the default header keeps the freshly issued access token. */
  lemma LogoutCanLeaveFreshDefault()
    ensures var s := Mount(map[Storage.TokenKey := "old", Storage.RefreshKey := "r0"]);
      var r := Logout(s, Refreshing());
      r.client.store == map[] && r.client.defaultAuth == Some("Bearer fresh")
  {
    var s := Mount(map[Storage.TokenKey := "old", Storage.RefreshKey := "r0"]);
    var net := Refreshing();
    var x := Dispatch(s.client, LogoutRequest, net);
    assert RefreshesOn(LogoutRequest, net.api(x.sent[0]));
    assert Storage.GetItem(s.client.store, Storage.RefreshKey) == Some("r0");
    var d := Obj(map["access_token" := Str("fresh"), "refresh_token" := Str("r1")]);
    assert Prop(Obj(map["data" := d]), "data") == Some(d);
    assert Prop(d, "access_token") == Some(Str("fresh"));
    assert TokenPair(Obj(map["data" := d])) == Some(("fresh", "r1"));
    assert RefreshOutcome(net.refresh(Some("r0"))) == Resolved(("fresh", "r1"));
    assert x.refreshes == [Some("r0")];
    assert x.client.defaultAuth == Some(Bearer("fresh"));
    assert Bearer("fresh") == "Bearer fresh";
  }
}

=== FILE: email_rule.dfy ===
/** The e-mail format check shared by the registration and password-reset
    forms, the regular expression `^[^\s@]+@[^\s@]+\.[^\s@]+$`. */
module EmailRule {
  import opened JsString

  /** The class `[^\s@]`. */
  predicate InClass(c: char) {
    !IsSpace(c) && c != '@'
  }

  /** The repetition `[^\s@]+`. */
  predicate Run(s: string) {
    |s| > 0 && forall k | 0 <= k < |s| :: InClass(s[k])
  }

  /** The pattern read off literally: three runs joined by `@` and `.`, with
      nothing before or after. */
  ghost predicate MatchesRegex(s: string) {
    exists a, b, c :: Run(a) && Run(b) && Run(c) && s == a + "@" + b + "." + c
  }

  /** The position of the first `@`, or `|s|` when there is none. */
  function IndexOfAt(s: string): (i: nat)
    ensures i <= |s|
    ensures i < |s| ==> s[i] == '@'
    ensures forall k | 0 <= k < i :: s[k] != '@'
  {
    if s == [] || s[0] == '@' then 0 else 1 + IndexOfAt(s[1..])
  }

  /** The same language described by positions: no white space, exactly one
      `@`, a non-empty local part before it, and a domain after it holding a
      `.` that is neither its first nor its last character. */
  predicate IsEmail(s: string) {
    var i := IndexOfAt(s);
    && 0 < i < |s|
    && (forall k | 0 <= k < |s| :: !IsSpace(s[k]))
    && (forall k | i < k < |s| :: s[k] != '@')
    && (exists j | i + 1 < j < |s| - 1 :: s[j] == '.')
  }

  /** Where each part of `a + "@" + b + "." + c` sits. */
  lemma PartsAt(a: string, b: string, c: string, k: nat)
    requires k < |a + "@" + b + "." + c|
    ensures var s, n, m := a + "@" + b + "." + c, |a|, |a| + 1 + |b|;
      && (k < n ==> s[k] == a[k])
      && (k == n ==> s[k] == '@')
      && (n < k < m ==> s[k] == b[k - n - 1])
      && (k == m ==> s[k] == '.')
      && (m < k ==> s[k] == c[k - m - 1])
  {
  }

  /** Every string the pattern matches passes the positional description. */
  lemma {:induction false} RegexImpliesIsEmail(s: string)
    requires MatchesRegex(s)
    ensures IsEmail(s)
  {
    var a, b, c :| Run(a) && Run(b) && Run(c) && s == a + "@" + b + "." + c;
    var n := |a|;
    var m := |a| + 1 + |b|;
    var i := IndexOfAt(s);
    PartsAt(a, b, c, n);
    if i < n {
      PartsAt(a, b, c, i);
    }
    forall k | 0 <= k < |s|
      ensures !IsSpace(s[k])
      ensures i < k ==> s[k] != '@'
    {
      PartsAt(a, b, c, k);
      if k < n {
        assert InClass(a[k]);
      } else if n < k < m {
        assert InClass(b[k - n - 1]);
      } else if m < k {
        assert InClass(c[k - m - 1]);
      }
    }
    PartsAt(a, b, c, m);
    assert i + 1 < m < |s| - 1 && s[m] == '.';
  }

  /** Every string passing the positional description is matched by the pattern. */
  lemma {:induction false} IsEmailImpliesRegex(s: string)
    requires IsEmail(s)
    ensures MatchesRegex(s)
  {
    var i := IndexOfAt(s);
    var j :| i + 1 < j < |s| - 1 && s[j] == '.';
    var a, b, c := s[..i], s[i + 1..j], s[j + 1..];
    assert s == a + "@" + b + "." + c by {
      assert s == s[..i] + [s[i]] + s[i + 1..j] + [s[j]] + s[j + 1..];
    }
    assert Run(a) by {
      forall k | 0 <= k < |a|
        ensures InClass(a[k])
      {
        assert a[k] == s[k];
      }
    }
    assert Run(b) by {
      forall k | 0 <= k < |b|
        ensures InClass(b[k])
      {
        assert b[k] == s[i + 1 + k];
      }
    }
    assert Run(c) by {
      forall k | 0 <= k < |c|
        ensures InClass(c[k])
      {
        assert c[k] == s[j + 1 + k];
      }
    }
  }

  /** The positional description accepts exactly the strings the pattern matches. */
  lemma IsEmailIffRegex(s: string)
    ensures IsEmail(s) <==> MatchesRegex(s)
  {
    if MatchesRegex(s) {
      RegexImpliesIsEmail(s);
    }
    if IsEmail(s) {
      IsEmailImpliesRegex(s);
    }
  }
}

=== FILE: forget_password.dfy ===
/** The password-reset request form: an e-mail guard before any request, then
    a mapping from the server's answer, or the exception, to a message and an
    alert type. */
module ForgetPassword {
  import opened JsValue
  import opened JsString
  import opened EmailRule
  import RegisterPage

  const InvalidEmail: string := "Please enter a valid email address."
  const LinkSent: string := "If this email is registered, a reset link has been sent."
  const GenericFailure: string := "Something went wrong. Please try again."
  const ServerDown: string := "Server error. Please try again later."

  /** `message` is `null` or the text shown; `kind` is the alert type. */
  datatype Page = Page(email: string, message: Json, kind: string, loading: bool)

  /** What the `fetch` produced: a response whose body parsed as JSON
      (`response.ok` and the body), or an exception thrown by `fetch` or by
      `response.json()`. */
  datatype Answer = Replied(ok: bool, body: Json) | Threw

  /** One submission: the page afterwards and whether a request went out. */
  datatype Submission = Submission(page: Page, requested: bool)

  /** `!email || !regex.test(email)`. */
  predicate Rejects(email: string) {
    email == "" || !IsEmail(email)
  }

  /** `handleSubmit`, given what the request would produce. */
  function HandleSubmit(p: Page, answer: Answer): (r: Submission)
    ensures r.page.email == p.email
    ensures !r.page.loading
    // An empty or malformed e-mail: the error message, and no request.
    ensures !r.requested <==> !MatchesRegex(p.email)
    ensures !r.requested ==> r.page.message == Str(InvalidEmail) && r.page.kind == "error"
    // An ok response: always the same message, whatever the server says.
    ensures r.requested && answer.Replied? && answer.ok ==>
      r.page.message == Str(LinkSent) && r.page.kind == "success"
    // A refusal: the server's message, or the fallback.
    ensures r.requested && answer.Replied? && !answer.ok ==>
      r.page.kind == "error" && Truthy(r.page.message)
      && r.page.message == (if Truthy(OptProp(answer.body, "message")) then OptProp(answer.body, "message") else Str(GenericFailure))
    // An exception: the server-error message.
    ensures r.requested && answer.Threw? ==>
      r.page.message == Str(ServerDown) && r.page.kind == "error"
  {
    IsEmailIffRegex(p.email);
    if Rejects(p.email) then
      Submission(p.(message := Str(InvalidEmail), kind := "error", loading := false), false)
    else
      match answer
      case Threw => Submission(p.(message := Str(ServerDown), kind := "error", loading := false), true)
      case Replied(ok, body) =>
        if ok then Submission(p.(message := Str(LinkSent), kind := "success", loading := false), true)
        else Submission(p.(message := Or(OptProp(body, "message"), Str(GenericFailure)), kind := "error", loading := false), true)
  }

  /** The guard here and the e-mail rule of the registration form agree: this
      form refuses an address exactly when registration reports an e-mail error. */
  lemma {:induction false} SameRuleAsRegistration(email: string, f: RegisterPage.Form)
    requires f.email == email
    ensures Rejects(email) <==> RegisterPage.Validate(f).email.Some?
  {
    IsEmailIffRegex(email);
    if MatchesRegex(email) {
      RegexImpliesIsEmail(email);
      assert !IsSpace(email[IndexOfAt(email)]);
    }
  }
}

=== FILE: gateway.dfy ===
/** The authenticated request gateway: the axios instance with its two
    interceptors. The request interceptor attaches the stored access token; the
    response interceptor answers a first 401 with one token refresh, posted with
    bare axios (so it never passes through these interceptors), and either
    replays the request once with the new token or wipes the store. */
module Gateway {
  import opened Options
  import opened JsValue
  import opened Http
  import Storage

  const AuthHeader: string := "Authorization"

  /** The state the gateway reads and writes: the local store, and the
      instance-wide default `Authorization` header (`api.defaults.headers.common`),
      which a successful refresh sets and nothing ever resets. */
  datatype Client = Client(store: Storage.Store, defaultAuth: Option<string>)

  /** The remote side: the API behind the instance, and the refresh endpoint,
      called with the stored refresh token (`None` is the `null` of a missing key). */
  datatype Net = Net(api: Config -> Reply, refresh: Option<string> -> Reply)

  /** One logical request: the client afterwards, how the caller's promise
      settled, every request the instance put on the wire (after its request
      interceptor), and every refresh token posted to the refresh endpoint. */
  datatype Exchange = Exchange(client: Client, outcome: Settled<Response>, sent: seq<Config>, refreshes: seq<Option<string>>)

  function Bearer(token: string): string {
    "Bearer " + token
  }

  /** The request interceptor. */
  function Attach(st: Storage.Store, cfg: Config): (r: Config)
    ensures Storage.HasItem(st, Storage.TokenKey) ==>
      r == cfg.(headers := cfg.headers[AuthHeader := Bearer(st[Storage.TokenKey])])
    ensures !Storage.HasItem(st, Storage.TokenKey) ==> r == cfg
  {
    if Storage.HasItem(st, Storage.TokenKey) then
      cfg.(headers := cfg.headers[AuthHeader := Bearer(st[Storage.TokenKey])])
    else cfg
  }

  /** Attaching twice is attaching once: a replayed request is not changed again
      by a store that has not changed. */
  lemma AttachIdempotent(st: Storage.Store, cfg: Config)
    ensures Attach(st, Attach(st, cfg)) == Attach(st, cfg)
  {
  }

  /** `data.data.access_token` and `data.data.refresh_token` of the refresh
      response, converted to strings as `localStorage.setItem` does; `None` is
      the TypeError thrown when the body, or its `data`, is null or undefined. A
      primitive `data` throws nothing and reads `undefined` fields. */
  function TokenPair(body: Json): Option<(string, string)> {
    match Prop(body, "data")
    case None => None
    case Some(d) =>
      match Prop(d, "access_token")
      case None => None
      case Some(access) => Some((ToStr(access), ToStr(OptProp(d, "refresh_token"))))
  }

  /** The refresh call and the reads of its body, as seen by the `try` around them. */
  function RefreshOutcome(reply: Reply): (r: Settled<(string, string)>)
    ensures r.Resolved? ==> Settle(reply).Resolved? && TokenPair(Settle(reply).value.data) == Some(r.value)
    ensures r.Rejected? && Settle(reply).Resolved? ==> r.reason == TypeFailure
    ensures Settle(reply).Rejected? ==> r == Rejected(Settle(reply).reason)
    ensures Settle(reply).Resolved? && TokenPair(Settle(reply).value.data).Some? ==>
      r == Resolved(TokenPair(Settle(reply).value.data).value)
  {
    match Settle(reply)
    case Rejected(e) => Rejected(e)
    case Resolved(resp) =>
      match TokenPair(resp.data)
      case Some(pair) => Resolved(pair)
      case None => Rejected(TypeFailure)
  }

  /** A first 401: the condition under which the response interceptor refreshes. */
  predicate RefreshesOn(cfg: Config, reply: Reply) {
    IsUnauthorized(reply) && !cfg.retry
  }

  /** `api(cfg)`: one request through both interceptors. */
  function Dispatch(c: Client, cfg: Config, net: Net): (x: Exchange)
    decreases if cfg.retry then 0 else 1
    // Bound: the instance sends a logical request at most twice and refreshes at most once.
    ensures 1 <= |x.sent| <= 2 && |x.refreshes| <= 1
    ensures x.sent[0] == Attach(c.store, cfg)
    ensures |x.sent| == 2 ==> |x.refreshes| == 1 && x.sent[1].retry
    // A success, any error other than 401, or a 401 on a request already retried
    // is passed on as-is, with nothing stored and nothing else sent.
    ensures !RefreshesOn(cfg, net.api(x.sent[0])) ==>
      && x.client == c
      && x.outcome == Settle(net.api(x.sent[0]))
      && |x.sent| == 1 && x.refreshes == []
    // A first 401 posts the stored refresh token, exactly once.
    ensures RefreshesOn(cfg, net.api(x.sent[0])) ==>
      x.refreshes == [Storage.GetItem(c.store, Storage.RefreshKey)]
    // The refresh failed: the whole store is wiped, the refresh error is the
    // outcome and nothing is replayed; the default header is left as it was.
    ensures RefreshesOn(cfg, net.api(x.sent[0])) && RefreshOutcome(net.refresh(x.refreshes[0])).Rejected? ==>
      && x.client == Client(map[], c.defaultAuth)
      && x.outcome == Rejected(RefreshOutcome(net.refresh(x.refreshes[0])).reason)
      && |x.sent| == 1
    // The refresh succeeded: both tokens are replaced, the default and the replayed
    // request carry the new access token, and the replay's outcome is the outcome.
    ensures RefreshesOn(cfg, net.api(x.sent[0])) && RefreshOutcome(net.refresh(x.refreshes[0])).Resolved? ==>
      var (access, refresh) := RefreshOutcome(net.refresh(x.refreshes[0])).value;
      && x.client.store == c.store[Storage.TokenKey := access][Storage.RefreshKey := refresh]
      && x.client.defaultAuth == Some(Bearer(access))
      && |x.sent| == 2
      && x.sent[1] == x.sent[0].(retry := true, headers := x.sent[0].headers[AuthHeader := Bearer(access)])
      && x.outcome == Settle(net.api(x.sent[1]))
  {
    var out := Attach(c.store, cfg);
    var reply := net.api(out);
    if RefreshesOn(out, reply) then
      var rt := Storage.GetItem(c.store, Storage.RefreshKey);
      match RefreshOutcome(net.refresh(rt))
      case Rejected(e) =>
        Exchange(Client(Storage.Clear(c.store), c.defaultAuth), Rejected(e), [out], [rt])
      case Resolved((access, refresh)) =>
        var c' := Client(c.store[Storage.TokenKey := access][Storage.RefreshKey := refresh], Some(Bearer(access)));
        var replay := out.(retry := true, headers := out.headers[AuthHeader := Bearer(access)]);
        var inner := Dispatch(c', replay, net);
        Exchange(inner.client, inner.outcome, [out] + inner.sent, [rt] + inner.refreshes)
    else
      Exchange(c, Settle(reply), [out], [])
  }
}

/** Properties that relate several requests through the gateway. */
module GatewayFacts {
  import opened Options
  import opened Http
  import opened Gateway
  import Storage

  /** The instance-wide default header set by a successful refresh outlives a
      later wipe of the store: after a refresh succeeds with access token `a`
      and a later refresh fails, the store is empty while the default header
      still reads `Bearer a`. */
  lemma StaleDefaultSurvivesWipe(c: Client, cfg1: Config, cfg2: Config, net: Net)
    requires RefreshesOn(cfg1, net.api(Attach(c.store, cfg1)))
    requires RefreshOutcome(net.refresh(Storage.GetItem(c.store, Storage.RefreshKey))).Resolved?
    requires var x1 := Dispatch(c, cfg1, net);
      && RefreshesOn(cfg2, net.api(Attach(x1.client.store, cfg2)))
      && RefreshOutcome(net.refresh(Storage.GetItem(x1.client.store, Storage.RefreshKey))).Rejected?
    ensures var x1 := Dispatch(c, cfg1, net);
      var x2 := Dispatch(x1.client, cfg2, net);
      var a := RefreshOutcome(net.refresh(Storage.GetItem(c.store, Storage.RefreshKey))).value.0;
      x2.client.store == map[] && x2.client.defaultAuth == Some(Bearer(a))
  {
    var x1 := Dispatch(c, cfg1, net);
    assert x1.refreshes == [Storage.GetItem(c.store, Storage.RefreshKey)];
    var x2 := Dispatch(x1.client, cfg2, net);
    assert x2.refreshes == [Storage.GetItem(x1.client.store, Storage.RefreshKey)];
  }

  /** A request that has already been retried is never recovered again: it is
      sent once, no refresh is posted, and the client does not change. */
  lemma RetriedIsTerminal(c: Client, cfg: Config, net: Net)
    requires cfg.retry
    ensures var x := Dispatch(c, cfg, net);
      |x.sent| == 1 && x.refreshes == [] && x.client == c
  {
  }
}

=== FILE: http.dfy ===
/** The HTTP vocabulary of the client: the request configuration an axios call
    carries, the server's answer, and how an answer settles the promise the
    caller awaits. The transport itself is not modelled: a server is a function
    from the request sent to the answer received. */
module Http {
  import opened Options
  import opened JsValue

  /** An axios request configuration. `retry` is the `_retry` flag the response
      interceptor sets on a request it has already tried to recover. */
  datatype Config = Config(verb: string, url: string, body: Json, headers: map<string, string>, retry: bool)

  /** A response as axios hands it over: the status and the parsed body (`response.data`). */
  datatype Response = Response(status: int, data: Json)

  /** What the network produced for one request: a response, or none at all
      (connection refused, DNS failure, CORS rejection). */
  datatype Reply = Answered(response: Response) | NoAnswer

  /** The reason a promise was rejected: an axios error, which carries the
      response when there was one, or the TypeError thrown by reading a property
      of `null`/`undefined` in a response body. */
  datatype Failure = HttpFailure(response: Option<Response>) | TypeFailure

  /** A settled promise. */
  datatype Settled<+T> = Resolved(value: T) | Rejected(reason: Failure)

  /** axios's default `validateStatus`: only 2xx statuses resolve. */
  predicate IsSuccess(status: int) {
    200 <= status < 300
  }

  /** How axios settles the promise of one request. */
  function Settle(reply: Reply): (r: Settled<Response>)
    ensures r.Resolved? <==> reply.Answered? && IsSuccess(reply.response.status)
    ensures r.Resolved? ==> r.value == reply.response
    ensures r.Rejected? ==> r.reason == HttpFailure(if reply.Answered? then Some(reply.response) else None)
  {
    match reply
    case Answered(resp) => if IsSuccess(resp.status) then Resolved(resp) else Rejected(HttpFailure(Some(resp)))
    case NoAnswer => Rejected(HttpFailure(None))
  }

  /** `err.response?.status === 401`. */
  predicate IsUnauthorized(reply: Reply) {
    reply.Answered? && reply.response.status == 401
  }

  /** `err.response?.data?.message`: the server's message, `undefined` when the
      failure carries no response or the body has no message. */
  function ErrorMessage(e: Failure): Json {
    match e
    case HttpFailure(Some(resp)) => OptProp(resp.data, "message")
    case _ => Undefined
  }
}

=== FILE: js_string.dfy ===
/** The string primitives the source calls: `trim()`, `toLowerCase()`,
    `includes()`, `length`, and the `\s` class of its regular expressions. */
module JsString {

  /** ECMAScript WhiteSpace and LineTerminator code points: the set both `\s`
      and `String.prototype.trim` use. */
  predicate IsSpace(c: char) {
    var n := c as int;
    || n == 0x09 || n == 0x0A || n == 0x0B || n == 0x0C || n == 0x0D || n == 0x20
    || n == 0xA0 || n == 0x1680 || (0x2000 <= n <= 0x200A)
    || n == 0x2028 || n == 0x2029 || n == 0x202F || n == 0x205F
    || n == 0x3000 || n == 0xFEFF
  }

  /** Every character is white space (this includes the empty string). */
  predicate Blank(s: string) {
    forall k | 0 <= k < |s| :: IsSpace(s[k])
  }

  /** Drops the maximal white-space prefix. */
  function TrimStart(s: string): (r: string)
    ensures |r| <= |s| && r == s[|s| - |r|..]
    ensures Blank(s[..|s| - |r|])
    ensures |r| > 0 ==> !IsSpace(r[0])
  {
    if |s| > 0 && IsSpace(s[0]) then TrimStart(s[1..]) else s
  }

  /** Drops the maximal white-space suffix. */
  function TrimEnd(s: string): (r: string)
    ensures |r| <= |s| && r == s[..|r|]
    ensures Blank(s[|r|..])
    ensures |r| > 0 ==> !IsSpace(r[|r| - 1])
  {
    if |s| > 0 && IsSpace(s[|s| - 1]) then TrimEnd(s[..|s| - 1]) else s
  }

  /** `s.trim()`. */
  function Trim(s: string): string {
    TrimEnd(TrimStart(s))
  }

  /** The trimmed string is an infix of the input, framed by white space only,
      and starts and ends with a non-space character. */
  lemma TrimIsInfix(s: string)
    ensures exists i, j :: 0 <= i <= j <= |s| && Trim(s) == s[i..j] && Blank(s[..i]) && Blank(s[j..])
    ensures |Trim(s)| > 0 ==> !IsSpace(Trim(s)[0]) && !IsSpace(Trim(s)[|Trim(s)| - 1])
  {
    var t := TrimStart(s);
    var i := |s| - |t|;
    var j := i + |TrimEnd(t)|;
    assert t == s[i..];
    assert TrimEnd(t) == t[..j - i] == s[i..j];
    assert t[j - i..] == s[j..];
    if |Trim(s)| > 0 {
      assert Trim(s)[0] == t[0];
    }
  }

  /** `!s.trim()` holds exactly for blank strings. */
  lemma TrimEmptyIffBlank(s: string)
    ensures Trim(s) == "" <==> Blank(s)
  {
    var t := TrimStart(s);
    if Trim(s) == "" {
      assert t[0..] == t;
      assert s[..|s|] == s;
    }
  }

  /** ASCII case mapping; other code points are left as they are. */
  function LowerChar(c: char): char {
    if 'A' <= c <= 'Z' then (c as int + 32) as char else c
  }

  /** `s.toLowerCase()`. */
  function Lower(s: string): (r: string)
    ensures |r| == |s|
    ensures forall k | 0 <= k < |s| :: r[k] == LowerChar(s[k])
  {
    seq(|s|, k requires 0 <= k < |s| => LowerChar(s[k]))
  }

  /** Lower-casing is idempotent, so a search term already in lower case is
      compared as it is. */
  lemma LowerIdempotent(s: string)
    ensures Lower(Lower(s)) == Lower(s)
  {
  }

  /** `t.includes(p)`: `p` occurs as a contiguous infix of `t`. */
  predicate Includes(t: string, p: string) {
    exists k | 0 <= k <= |t| - |p| :: OccursAt(t, p, k)
  }

  predicate OccursAt(t: string, p: string, k: nat) {
    k + |p| <= |t| && t[k..k + |p|] == p
  }

  /** Every string includes the empty string. */
  lemma IncludesEmpty(t: string)
    ensures Includes(t, "")
  {
    assert OccursAt(t, "", 0);
  }

  /** `s.length`: the number of UTF-16 code units, so a character outside the
      Basic Multilingual Plane counts twice. */
  function Utf16Length(s: string): (n: nat)
    ensures |s| <= n <= 2 * |s|
  {
    if s == [] then 0 else (if s[0] as int >= 0x10000 then 2 else 1) + Utf16Length(s[1..])
  }
}

=== FILE: js_value.dfy ===
/** JavaScript values as far as the application inspects them, together with the
    three operations the source leans on: truthiness (`!!v`, `if (v)`, `a || b`),
    property access (`a.b`, which throws on `null`/`undefined`) with its optional
    form (`a?.b`), and string conversion (`String(v)`, template literals). */
module JsValue {
  import opened Options

  /** Arrays, functions and floating point numbers do not occur in the modelled
      logic; objects are plain property maps. */
  datatype Json =
    | Undefined
    | Null
    | Bool(b: bool)
    | Num(n: int)
    | Str(s: string)
    | Obj(fields: map<string, Json>)

  predicate Nullish(v: Json) {
    v.Undefined? || v.Null?
  }

  /** JavaScript truthiness. */
  predicate Truthy(v: Json) {
    match v
    case Undefined => false
    case Null => false
    case Bool(b) => b
    case Num(n) => n != 0
    case Str(s) => s != ""
    case Obj(_) => true
  }

  /** `a || b`: the first operand when it is truthy, otherwise the second. */
  function Or(a: Json, b: Json): Json {
    if Truthy(a) then a else b
  }

  /** `v.k`: `None` stands for the TypeError thrown when `v` is null or undefined;
      a missing property, or a property of a primitive, reads as `undefined`. */
  function Prop(v: Json, k: string): Option<Json> {
    match v
    case Undefined => None
    case Null => None
    case Obj(fields) => Some(if k in fields then fields[k] else Undefined)
    case _ => Some(Undefined)
  }

  /** `v?.k`: like `Prop`, but short-circuits to `undefined` instead of throwing. */
  function OptProp(v: Json, k: string): Json {
    match Prop(v, k)
    case Some(x) => x
    case None => Undefined
  }

  /** Strict equality `===` on the values the model compares (ids). Two object
      values are taken to be distinct references. */
  predicate StrictEquals(a: Json, b: Json) {
    !a.Obj? && a == b
  }

  function DigitChar(d: nat): char
    requires d < 10
  {
    "0123456789"[d]
  }

  /** Decimal notation of a natural number. */
  function Decimal(n: nat): string
    decreases n
  {
    if n < 10 then [DigitChar(n)] else Decimal(n / 10) + [DigitChar(n % 10)]
  }

  /** `String(v)`, as used by `localStorage.setItem` and template literals. */
  function ToStr(v: Json): string {
    match v
    case Undefined => "undefined"
    case Null => "null"
    case Bool(b) => if b then "true" else "false"
    case Num(n) => if n < 0 then "-" + Decimal(-n) else Decimal(n)
    case Str(s) => s
    case Obj(_) => "[object Object]"
  }
}

=== FILE: options.dfy ===
/** The optional value used throughout the model: `None` stands for a missing
    key, an absent header or JavaScript's `undefined` where only presence matters. */
module Options {

  datatype Option<+T> = None | Some(value: T) {

    /** Returns the value in `Some`, or `default` when there is none. */
    function GetOr(default: T): T {
      match this
      case Some(v) => v
      case None => default
    }
  }
}

=== FILE: posts_filter.dfy ===
/** A post as the feed receives it, and the search filter over the feed. */
module PostsFilter {
  import opened Options
  import opened JsValue
  import opened JsString

  /** `title` and `content` may be missing from the server's record; `userId`
      is whatever the record carries as `user_id`. */
  datatype Post = Post(id: int, title: Option<string>, content: Option<string>, userId: Json)

  /** `(field || "")`. */
  function TextOf(field: Option<string>): string {
    field.GetOr("")
  }

  /** A post is kept when its title or its content contains the search term,
      both sides lower-cased. */
  predicate Matches(p: Post, search: string) {
    || Includes(Lower(TextOf(p.title)), Lower(search))
    || Includes(Lower(TextOf(p.content)), Lower(search))
  }

  /** `posts.filter(...)`. */
  function Filter(posts: seq<Post>, search: string): (r: seq<Post>)
    ensures |r| <= |posts|
    ensures forall k | 0 <= k < |r| :: Matches(r[k], search) && r[k] in posts
  {
    if posts == [] then []
    else (if Matches(posts[0], search) then [posts[0]] else []) + Filter(posts[1..], search)
  }

  /** `idx` lists, in increasing order, positions of `ys` holding `xs`. */
  ghost predicate Embeds<T>(xs: seq<T>, ys: seq<T>, idx: seq<nat>) {
    && |idx| == |xs|
    && (forall k | 0 <= k < |idx| :: idx[k] < |ys| && xs[k] == ys[idx[k]])
    && (forall k, l | 0 <= k < l < |idx| :: idx[k] < idx[l])
  }

  /** `xs` is an order-preserving subsequence of `ys`. */
  ghost predicate IsSubsequence<T>(xs: seq<T>, ys: seq<T>) {
    exists idx :: Embeds(xs, ys, idx)
  }

  /** Positions in the tail of `ys` are positions in `ys`, one further on. */
  lemma Shift<T>(xs: seq<T>, ys: seq<T>, rest: seq<nat>) returns (idx: seq<nat>)
    requires |ys| > 0 && Embeds(xs, ys[1..], rest)
    ensures Embeds(xs, ys, idx)
    ensures Embeds([ys[0]] + xs, ys, [0] + idx)
  {
    idx := seq(|rest|, k requires 0 <= k < |rest| => rest[k] + 1);
    assert forall k | 0 <= k < |idx| :: idx[k] == rest[k] + 1 && xs[k] == ys[1..][rest[k]];
    var ys0 := [ys[0]] + xs;
    assert forall k | 1 <= k < |ys0| :: ys0[k] == xs[k - 1];
  }

  /** The positions of the kept posts, in increasing order. */
  lemma {:induction false} FilterPositions(posts: seq<Post>, search: string) returns (idx: seq<nat>)
    ensures Embeds(Filter(posts, search), posts, idx)
  {
    if posts == [] {
      idx := [];
    } else {
      var rest := FilterPositions(posts[1..], search);
      var shifted := Shift(Filter(posts[1..], search), posts, rest);
      if Matches(posts[0], search) {
        idx := [0] + shifted;
      } else {
        idx := shifted;
      }
    }
  }

  /** The filter keeps an order-preserving subsequence of the feed. */
  lemma FilterIsSubsequence(posts: seq<Post>, search: string)
    ensures IsSubsequence(Filter(posts, search), posts)
  {
    var idx := FilterPositions(posts, search);
  }

  /** Nothing matching is dropped and nothing else is kept: each post occurs
      in the result as often as in the feed when it matches, and never otherwise. */
  lemma {:induction false} FilterCounts(posts: seq<Post>, search: string, p: Post)
    ensures multiset(Filter(posts, search))[p] == if Matches(p, search) then multiset(posts)[p] else 0
  {
    if posts != [] {
      FilterCounts(posts[1..], search, p);
      assert posts == [posts[0]] + posts[1..];
    }
  }

  /** An empty search keeps the whole feed, in order. */
  lemma {:induction false} FilterEmptySearch(posts: seq<Post>)
    ensures Filter(posts, "") == posts
  {
    if posts != [] {
      IncludesEmpty(Lower(TextOf(posts[0].title)));
      assert Lower("") == "";
      FilterEmptySearch(posts[1..]);
    }
  }

  /** Filtering distributes over concatenation of feeds. */
  lemma {:induction false} FilterAppend(a: seq<Post>, b: seq<Post>, search: string)
    ensures Filter(a + b, search) == Filter(a, search) + Filter(b, search)
  {
    if a != [] {
      assert (a + b)[1..] == a[1..] + b;
      FilterAppend(a[1..], b, search);
    } else {
      assert a + b == b;
    }
  }

  /** Filtering a second time with the same term changes nothing. */
  lemma {:induction false} FilterIdempotent(posts: seq<Post>, search: string)
    ensures Filter(Filter(posts, search), search) == Filter(posts, search)
  {
    if posts != [] {
      FilterIdempotent(posts[1..], search);
      var head := if Matches(posts[0], search) then [posts[0]] else [];
      FilterAppend(head, Filter(posts[1..], search), search);
    }
  }

  /** The search is case-insensitive: lower-casing the term first changes nothing. */
  lemma FilterIgnoresCase(posts: seq<Post>, search: string)
    ensures Filter(posts, Lower(search)) == Filter(posts, search)
  {
    LowerIdempotent(search);
  }
}

=== FILE: posts_page.dfy ===
/** The posts page: the feed with its search, the create, update and delete
    flows, and the per-post comment panel and drafts. Each handler takes the
    outcome of its request, and of the refetch that follows a success, as input. */
module PostsPage {
  import opened Options
  import opened JsValue
  import opened JsString
  import opened PostsFilter
  import Gateway
  import AuthContext

  /** The feed: the posts as last fetched, the loading flag, the error shown and the search term. */
  datatype Feed = Feed(posts: seq<Post>, loading: bool, error: string, search: string)

  /** The create dialog and its draft (`newTitle`, `newContent`). */
  datatype CreateDialog = CreateDialog(open: bool, title: string, content: string)

  /** The update dialog: the post being edited (`updatePost`) and the edited fields. */
  datatype UpdateDialog = UpdateDialog(open: bool, editing: Option<Post>, title: Option<string>, content: Option<string>)

  /** The delete confirmation (`deleteSN`) and the id it is about (`toDeleteId`). */
  datatype DeletePrompt = DeletePrompt(open: bool, target: Option<int>)

  /** The open comment panel (`openCommentsId`) and the drafts (`commentTexts`). */
  datatype Comments = Comments(openId: Option<int>, drafts: map<int, string>)

  /** The page's React state. */
  datatype Page = Page(feed: Feed, create: CreateDialog, update: UpdateDialog, delete: DeletePrompt, comments: Comments)

  /** A request the page sends through the gateway. `DeletePost(None)` is the
      request for `/posts/null`. */
  datatype Request =
    | FetchPosts
    | CreatePost(title: string, content: string)
    | UpdatePost(postId: int, newTitle: Option<string>, newContent: Option<string>)
    | DeletePost(target: Option<int>)
    | AddComment(commentedId: int, text: string)

  /** What `GET /posts` produced. */
  datatype Listing = Listed(posts: seq<Post>) | ListingFailed

  /** A handler's effect: the page afterwards and the requests sent, in order. */
  datatype Step = Step(page: Page, sent: seq<Request>)

  const CreateFailed: string := "Failed to create post"
  const UpdateFailed: string := "Failed to update post"
  const DeleteFailed: string := "Failed to delete post"
  const CommentFailed: string := "Failed to add comment"
  const FetchFailed: string := "Failed to fetch posts"

  /** The page as first rendered, before its initial fetch: no posts, loading,
      empty drafts and edited fields, every dialog closed. */
  const Initial: Page := Page(Feed([], true, "", ""), CreateDialog(false, "", ""),
                              UpdateDialog(false, None, Some(""), Some("")), DeletePrompt(false, None), Comments(None, map[]))

  /** The posts shown. */
  function Shown(p: Page): seq<Post> {
    Filter(p.feed.posts, p.feed.search)
  }

  /** `fetchPosts`, on the feed alone: it catches its own failure, so it never
      rejects, and it always ends not loading. */
  function Fetch(f: Feed, listing: Listing): (r: Feed)
    ensures !r.loading && r.search == f.search
    ensures listing.Listed? ==> r.posts == listing.posts && r.error == ""
    ensures listing.ListingFailed? ==> r.posts == f.posts && r.error == FetchFailed
  {
    match listing
    case Listed(posts) => f.(posts := posts, error := "", loading := false)
    case ListingFailed => f.(error := FetchFailed, loading := false)
  }

  /** Shows an error on the feed. */
  function Failing(p: Page, message: string): Page {
    p.(feed := p.feed.(error := message))
  }

  /** `handleCreate`: `accepted` is whether the POST succeeded, `listing` what the refetch produced. */
  function HandleCreate(p: Page, accepted: bool, listing: Listing): (r: Step)
    // A blank title or blank content suppresses the request.
    ensures r.sent == [] <==> Blank(p.create.title) || Blank(p.create.content)
    ensures r.sent == [] ==> r.page == p
    // Otherwise the untrimmed draft is posted.
    ensures r.sent != [] ==> r.sent[0] == CreatePost(p.create.title, p.create.content)
    // Success: the dialog closes, the draft is reset, the feed is refetched.
    ensures r.sent != [] && accepted ==>
      && r.sent == [CreatePost(p.create.title, p.create.content), FetchPosts]
      && r.page.create == CreateDialog(false, "", "")
      && r.page.feed == Fetch(p.feed, listing)
      && r.page.update == p.update && r.page.delete == p.delete && r.page.comments == p.comments
    // Failure: the error is shown and the dialog keeps its draft.
    ensures r.sent != [] && !accepted ==>
      r.sent == [CreatePost(p.create.title, p.create.content)] && r.page == Failing(p, CreateFailed)
  {
    TrimEmptyIffBlank(p.create.title);
    TrimEmptyIffBlank(p.create.content);
    var req := CreatePost(p.create.title, p.create.content);
    if Trim(p.create.title) == "" || Trim(p.create.content) == "" then Step(p, [])
    else if accepted then
      Step(p.(create := CreateDialog(false, "", ""), feed := Fetch(p.feed, listing)), [req, FetchPosts])
    else Step(Failing(p, CreateFailed), [req])
  }

  /** `openUpdateDialog(post)`. */
  function OpenUpdate(p: Page, post: Post): Page {
    p.(update := UpdateDialog(true, Some(post), post.title, post.content))
  }

  /** `closeUpdateDialog`: the edited fields are left as they were. */
  function CloseUpdate(p: Page): (r: Page)
    ensures r.update == UpdateDialog(false, None, p.update.title, p.update.content)
    ensures r.(update := p.update) == p
  {
    p.(update := p.update.(open := false, editing := None))
  }

  /** `handleUpdate`. */
  function HandleUpdate(p: Page, accepted: bool, listing: Listing): (r: Step)
    // Without a selected post nothing happens.
    ensures p.update.editing == None ==> r == Step(p, [])
    // No change to title and content: the dialog closes without a request.
    ensures p.update.editing.Some? && p.update.title == p.update.editing.value.title
            && p.update.content == p.update.editing.value.content ==>
      r == Step(CloseUpdate(p), [])
    // A change: PUT `/posts/{id}` with both fields.
    ensures p.update.editing.Some? && (p.update.title != p.update.editing.value.title
            || p.update.content != p.update.editing.value.content) ==>
      && r.sent != []
      && r.sent[0] == UpdatePost(p.update.editing.value.id, p.update.title, p.update.content)
      && (accepted ==>
            && r.sent == [r.sent[0], FetchPosts]
            && !r.page.update.open && r.page.update.editing == None
            && r.page.update.title == p.update.title && r.page.update.content == p.update.content
            && r.page.feed == Fetch(p.feed, listing)
            && r.page.create == p.create && r.page.delete == p.delete && r.page.comments == p.comments)
      && (!accepted ==> r == Step(Failing(p, UpdateFailed), [r.sent[0]]))
  {
    match p.update.editing
    case None => Step(p, [])
    case Some(post) =>
      if p.update.title == post.title && p.update.content == post.content then Step(CloseUpdate(p), [])
      else
        var req := UpdatePost(post.id, p.update.title, p.update.content);
        if accepted then
          var closed := CloseUpdate(p);
          Step(closed.(feed := Fetch(p.feed, listing)), [req, FetchPosts])
        else Step(Failing(p, UpdateFailed), [req])
  }

  /** `promptDelete(id)`. */
  function PromptDelete(p: Page, id: int): Page {
    p.(delete := DeletePrompt(true, Some(id)))
  }

  /** `cancelDelete`: the prompt closes and forgets its id; nothing else changes. */
  function CancelDelete(p: Page): (r: Page)
    ensures r.delete == DeletePrompt(false, None)
    ensures r.(delete := p.delete) == p
  {
    p.(delete := DeletePrompt(false, None))
  }

  /** `handleDelete`: deletes whatever id the prompt holds, `null` included. */
  function HandleDelete(p: Page, accepted: bool, listing: Listing): (r: Step)
    ensures r.sent != [] && r.sent[0] == DeletePost(p.delete.target)
    ensures accepted ==>
      && r.sent == [DeletePost(p.delete.target), FetchPosts]
      && r.page.delete == DeletePrompt(false, None)
      && r.page.feed == Fetch(p.feed, listing)
      && r.page.create == p.create && r.page.update == p.update && r.page.comments == p.comments
    ensures !accepted ==> r == Step(Failing(p, DeleteFailed), [DeletePost(p.delete.target)])
  {
    var req := DeletePost(p.delete.target);
    if accepted then
      Step(p.(delete := DeletePrompt(false, None), feed := Fetch(p.feed, listing)), [req, FetchPosts])
    else Step(Failing(p, DeleteFailed), [req])
  }

  /** `toggleComments(id)`: the panel of `id` opens, unless it is the open one,
      which closes. A single id is held, so at most one panel is open. */
  function ToggleComments(open: Option<int>, id: int): (r: Option<int>)
    ensures r == Some(id) <==> open != Some(id)
    ensures r == None <==> open == Some(id)
  {
    if open == Some(id) then None else Some(id)
  }

  /** Toggling the same post twice restores a closed or own panel; toggling
      another post in between leaves that other post's panel open. */
  lemma ToggleTwice(open: Option<int>, id: int, other: int)
    ensures open == None || open == Some(id) ==> ToggleComments(ToggleComments(open, id), id) == open
    ensures other != id ==> ToggleComments(ToggleComments(open, id), other) == Some(other)
  {
  }

  /** `handleCommentChange(postId, val)`: only that post's draft changes. */
  function ChangeComment(drafts: map<int, string>, postId: int, val: string): (r: map<int, string>)
    ensures r.Keys == drafts.Keys + {postId} && r[postId] == val
    ensures forall k | k in drafts && k != postId :: r[k] == drafts[k]
  {
    drafts[postId := val]
  }

  /** `commentTexts[postId]?.trim()`: `None` when the post has no draft. */
  function DraftText(drafts: map<int, string>, postId: int): (r: Option<string>)
    ensures r.Some? <==> postId in drafts
    ensures r.Some? ==> r.value == Trim(drafts[postId]) && (r.value == "" <==> Blank(drafts[postId]))
  {
    if postId in drafts then
      TrimEmptyIffBlank(drafts[postId]);
      Some(Trim(drafts[postId]))
    else None
  }

  /** `handleAddComment(postId)`. */
  function HandleAddComment(p: Page, postId: int, accepted: bool, listing: Listing): (r: Step)
    // No draft, or a blank one: nothing is sent and nothing changes.
    ensures r.sent == [] <==> postId !in p.comments.drafts || Blank(p.comments.drafts[postId])
    ensures r.sent == [] ==> r.page == p
    // Otherwise the trimmed draft is sent.
    ensures r.sent != [] ==> r.sent[0] == AddComment(postId, Trim(p.comments.drafts[postId]))
    // Success: only this post's draft is cleared, and the feed is refetched.
    ensures r.sent != [] && accepted ==>
      && r.sent == [r.sent[0], FetchPosts]
      && r.page.comments.drafts == p.comments.drafts[postId := ""]
      && r.page.comments.openId == p.comments.openId
      && r.page.feed == Fetch(p.feed, listing)
      && r.page.create == p.create && r.page.update == p.update && r.page.delete == p.delete
    // Failure: the error is shown and every draft is kept.
    ensures r.sent != [] && !accepted ==> r == Step(Failing(p, CommentFailed), [r.sent[0]])
  {
    match DraftText(p.comments.drafts, postId)
    case None => Step(p, [])
    case Some(text) =>
      if text == "" then Step(p, [])
      else if accepted then
        var cleared := p.comments.(drafts := p.comments.drafts[postId := ""]);
        Step(p.(comments := cleared, feed := Fetch(p.feed, listing)), [AddComment(postId, text), FetchPosts])
      else Step(Failing(p, CommentFailed), [AddComment(postId, text)])
  }

  /** The sent comment is the draft without its surrounding white space: an
      infix of the draft that starts and ends with a non-space character. */
  lemma SentCommentIsTrimmedDraft(p: Page, postId: int, accepted: bool, listing: Listing)
    requires HandleAddComment(p, postId, accepted, listing).sent != []
    ensures var c := HandleAddComment(p, postId, accepted, listing).sent[0].text;
      var d := p.comments.drafts[postId];
      && c != ""
      && !IsSpace(c[0]) && !IsSpace(c[|c| - 1])
      && exists i, j :: 0 <= i <= j <= |d| && c == d[i..j] && Blank(d[..i]) && Blank(d[j..])
  {
    TrimIsInfix(p.comments.drafts[postId]);
    TrimEmptyIffBlank(p.comments.drafts[postId]);
  }

  /** `user?.id === post.user_id`: whether the edit and delete controls show. */
  function ShowsOwnerControls(user: Json, post: Post): (r: bool)
    ensures user.Obj? && "id" in user.fields && !user.fields["id"].Obj? ==>
      (r <==> post.userId == user.fields["id"])
    ensures user.Obj? && "id" !in user.fields ==> (r <==> post.userId == Undefined)
    ensures Nullish(user) ==> (r <==> post.userId == Undefined)
    // A primitive user has no `id`: `user?.id` reads `undefined`.
    ensures !user.Obj? ==> (r <==> post.userId == Undefined)
    // An object-valued `id` is never `===` to anything.
    ensures user.Obj? && "id" in user.fields && user.fields["id"].Obj? ==> !r
  {
    StrictEquals(OptProp(user, "id"), post.userId)
  }

  /** The first fetch after mounting: the search starts empty, so a listing is
      shown in full; a failure shows nothing and the fetch error. */
  lemma FirstFetchShowsListing(listing: Listing)
    ensures var f := Fetch(Initial.feed, listing);
      && !f.loading
      && (listing.Listed? ==> Shown(Initial.(feed := f)) == listing.posts && f.error == "")
      && (listing.ListingFailed? ==> Shown(Initial.(feed := f)) == [] && f.error == FetchFailed)
  {
    if listing.Listed? {
      FilterEmptySearch(listing.posts);
    }
  }

  /** After a successful create the draft is reset, and after a suppressed one
      it was blank already: either way, submitting the dialog again sends nothing. */
  lemma CreateTwiceSendsOnce(p: Page, listing: Listing, accepted: bool, listing2: Listing)
    ensures var q := HandleCreate(p, true, listing).page;
      HandleCreate(q, accepted, listing2) == Step(q, [])
  {
    var q := HandleCreate(p, true, listing).page;
    if HandleCreate(p, true, listing).sent != [] {
      assert Blank(q.create.title) by { TrimEmptyIffBlank(q.create.title); }
    }
  }

  /** Opening the update dialog and submitting it unedited closes it without a request. */
  lemma UnchangedUpdateSendsNothing(p: Page, post: Post, accepted: bool, listing: Listing)
    ensures HandleUpdate(OpenUpdate(p, post), accepted, listing) == Step(CloseUpdate(OpenUpdate(p, post)), [])
  {
  }

  /** Opening the dialog on a post and editing it: the update is sent for that
      post's id with the edited fields, and a success leaves no post selected,
      so submitting again does nothing. */
  lemma EditedUpdateTargetsOpenedPost(p: Page, post: Post, title: Option<string>, content: Option<string>, listing: Listing)
    requires title != post.title || content != post.content
    ensures var q := OpenUpdate(p, post).(update := OpenUpdate(p, post).update.(title := title, content := content));
      var r := HandleUpdate(q, true, listing);
      && r.sent == [UpdatePost(post.id, title, content), FetchPosts]
      && HandleUpdate(r.page, true, listing) == Step(r.page, [])
  {
  }

  /** Prompting and then cancelling is cancelling: the prompt keeps no trace of the id. */
  lemma CancelForgetsPrompt(p: Page, id: int)
    ensures CancelDelete(PromptDelete(p, id)) == CancelDelete(p)
  {
  }

  /** A confirmed delete removes the prompted post and leaves the prompt as
      cancelling does, with the feed refetched. */
  lemma ConfirmDeletesPrompted(p: Page, id: int, listing: Listing)
    ensures HandleDelete(PromptDelete(p, id), true, listing) ==
      Step(CancelDelete(p).(feed := Fetch(p.feed, listing)), [DeletePost(Some(id)), FetchPosts])
  {
  }

  /** Typing into a post's comment field: that post's draft reads back as the
      typed text trimmed, and every other post's draft reads as before. */
  lemma ChangeThenDraftText(drafts: map<int, string>, postId: int, val: string, other: int)
    ensures DraftText(ChangeComment(drafts, postId, val), postId) == Some(Trim(val))
    ensures other != postId ==> DraftText(ChangeComment(drafts, postId, val), other) == DraftText(drafts, other)
  {
  }

  /** A typed comment that is not blank is what gets sent, trimmed. */
  lemma TypedCommentIsSent(p: Page, postId: int, val: string, accepted: bool, listing: Listing)
    requires !Blank(val)
    ensures var q := p.(comments := p.comments.(drafts := ChangeComment(p.comments.drafts, postId, val)));
      HandleAddComment(q, postId, accepted, listing).sent[0] == AddComment(postId, Trim(val))
  {
  }

  /** After a logout the user is `null`, so the owner controls show exactly on
      posts without a `user_id`. */
  lemma LoggedOutOwnerControls(s: AuthContext.Session, net: Gateway.Net, post: Post)
    ensures ShowsOwnerControls(AuthContext.Logout(s, net).user, post) <==> post.userId == Undefined
  {
  }
}

=== FILE: protected_route.dfy ===
/** The route guard: what a protected route renders for a given authentication state. */
module ProtectedRoute {
  import opened AuthContext
  import opened Gateway
  import opened Http
  import Storage

  /** The loading placeholder, the protected page itself, or a redirect; `replace`
      means the redirect replaces the current history entry instead of pushing. */
  datatype View = LoadingView | Children | Redirect(to: string, replace: bool)

  function Gate(loading: bool, authenticated: bool): (v: View)
    ensures v.LoadingView? <==> loading
    ensures v.Children? <==> !loading && authenticated
    ensures v.Redirect? <==> !loading && !authenticated
    ensures v.Redirect? ==> v == Redirect("/login", true)
  {
    if loading then LoadingView
    else if authenticated then Children
    else Redirect("/login", true)
  }

  /** The view for a session of the authentication context. */
  function Render(s: Session): View {
    Gate(s.loading, IsAuthenticated(s))
  }

  /** Once bootstrap has finished the guard never shows the placeholder again,
      and after a logout it redirects to the login page. */
  lemma GateAfterBootAndLogout(s: Session, net1: Net, net2: Net)
    ensures var booted := InitializeAuth(s, net1).session;
      Render(booted) != LoadingView
      && Render(Logout(booted, net2)) == Redirect("/login", true)
  {
  }

  /** The gateway wipes the store when a refresh fails, but nothing resets the
      context's `user`: the session stays authenticated without a token, and
      the guard keeps rendering the protected page. */
  lemma FailedRefreshKeepsPage(s: Session, cfg: Config, net: Net)
    requires IsAuthenticated(s) && !s.loading
    requires RefreshesOn(cfg, net.api(Attach(s.client.store, cfg)))
    requires RefreshOutcome(net.refresh(Storage.GetItem(s.client.store, Storage.RefreshKey))).Rejected?
    ensures var x := Dispatch(s.client, cfg, net);
      var after := s.(client := x.client);
      && after.client.store == map[] && x.outcome.Rejected?
      && !Storage.HasItem(after.client.store, Storage.TokenKey)
      && Render(after) == Children
  {
  }
}

=== FILE: register_page.dfy ===
/** The registration form: its client-side validation, with one message per
    field and a fixed precedence, and its submit handler. */
module RegisterPage {
  import opened Options
  import opened JsValue
  import opened JsString
  import opened EmailRule
  import opened Http
  import opened Gateway
  import opened AuthContext

  datatype Form = Form(name: string, email: string, password: string, confirmation: string)

  /** The `errors` object `validate` builds: at most one message per field. */
  datatype FieldErrors = FieldErrors(name: Option<string>, email: Option<string>, password: Option<string>, confirmation: Option<string>)

  const NoFieldErrors: FieldErrors := FieldErrors(None, None, None, None)

  const NameRequired: string := "Full name is required"
  const EmailRequired: string := "Email address is required"
  const EmailInvalid: string := "Enter a valid email address"
  const PasswordRequired: string := "Password is required"
  const PasswordTooShort: string := "Password must be at least 8 characters"
  const ConfirmationRequired: string := "Please confirm your password"
  const PasswordsDiffer: string := "Passwords do not match"
  const RegisterFallback: string := "Registration failed. Please try again."

  /** `validate()`: the name and the e-mail are trimmed before the emptiness
      test, the e-mail pattern is matched against the untrimmed value, and the
      password is never trimmed. */
  function Validate(f: Form): (e: FieldErrors)
    ensures e.name == Some(NameRequired) <==> Blank(f.name)
    ensures e.name == None <==> !Blank(f.name)
    ensures e.email == Some(EmailRequired) <==> Blank(f.email)
    ensures e.email == Some(EmailInvalid) <==> !Blank(f.email) && !MatchesRegex(f.email)
    ensures e.email == None <==> !Blank(f.email) && MatchesRegex(f.email)
    ensures e.password == Some(PasswordRequired) <==> f.password == ""
    ensures e.password == Some(PasswordTooShort) <==> f.password != "" && Utf16Length(f.password) < 8
    ensures e.password == None <==> Utf16Length(f.password) >= 8
    ensures e.confirmation == Some(ConfirmationRequired) <==> f.confirmation == ""
    ensures e.confirmation == Some(PasswordsDiffer) <==> f.confirmation != "" && f.confirmation != f.password
    ensures e.confirmation == None <==> f.confirmation != "" && f.confirmation == f.password
  {
    TrimEmptyIffBlank(f.name);
    TrimEmptyIffBlank(f.email);
    IsEmailIffRegex(f.email);
    FieldErrors(
      if Trim(f.name) == "" then Some(NameRequired) else None,
      if Trim(f.email) == "" then Some(EmailRequired)
      else if !IsEmail(f.email) then Some(EmailInvalid) else None,
      if f.password == "" then Some(PasswordRequired)
      else if Utf16Length(f.password) < 8 then Some(PasswordTooShort) else None,
      if f.confirmation == "" then Some(ConfirmationRequired)
      else if f.confirmation != f.password then Some(PasswordsDiffer) else None)
  }

  /** `validate()` returns true exactly when the form has a non-blank name, an
      e-mail the pattern matches, a password of at least 8 code units and an
      identical confirmation. */
  lemma {:induction false} ValidateAcceptsExactly(f: Form)
    ensures Validate(f) == NoFieldErrors <==>
      !Blank(f.name) && MatchesRegex(f.email) && Utf16Length(f.password) >= 8 && f.confirmation == f.password
  {
    if MatchesRegex(f.email) {
      RegexImpliesIsEmail(f.email);
      var i := IndexOfAt(f.email);
      assert !IsSpace(f.email[i]);
    }
    if Utf16Length(f.password) >= 8 {
      assert f.password != "";
    }
  }

  /** The form state the submit handler reads and writes. */
  datatype Page = Page(form: Form, fieldErrors: FieldErrors, serverError: Json, loading: bool)

  /** One submission: the page and session afterwards, the `register` call if
      one was made, and the navigation target if navigation happened. */
  datatype Submission = Submission(page: Page, session: Session, registration: Option<AuthStep>, navigateTo: Option<string>)

  /** The object passed to `register`. */
  function Payload(f: Form): Json {
    Obj(map["name" := Str(f.name), "email" := Str(f.email), "password" := Str(f.password),
            "password_confirmation" := Str(f.confirmation)])
  }

  /** `handleSubmit`. */
  function HandleSubmit(p: Page, s: Session, net: Net): (r: Submission)
    ensures r.page.form == p.form && r.page.fieldErrors == Validate(p.form)
    // An invalid form makes no call and does not navigate.
    ensures Validate(p.form) != NoFieldErrors ==>
      r.registration == None && r.navigateTo == None && r.session == s
      && r.page.serverError == Str("") && r.page.loading == p.loading
    // A valid form calls `register` once with the four fields, and then always
    // navigates to '/', because `register` resolves even when the server refuses.
    ensures Validate(p.form) == NoFieldErrors ==>
      && r.registration == Some(Register(s, Payload(p.form), net))
      && r.session == r.registration.value.session
      && r.navigateTo == Some("/")
      && r.page.serverError == Str("")
      && !r.page.loading
  {
    var errors := Validate(p.form);
    var p1 := p.(serverError := Str(""), fieldErrors := errors);
    if errors != NoFieldErrors then
      Submission(p1, s, None, None)
    else
      var step := Register(s, Payload(p.form), net);
      match step.settled
      case Resolved(_) => Submission(p1.(loading := false), step.session, Some(step), Some("/"))
      case Rejected(e) =>
        Submission(p1.(serverError := Or(ErrorMessage(e), Str(RegisterFallback)), loading := false),
                   step.session, Some(step), None)
  }

  /** A server that refuses every registration with a 422 and a message. */
  function Refusing(message: string): Net {
    Net(cfg => Answered(Response(422, Obj(map["message" := Str(message)]))),
        rt => NoAnswer)
  }

  /** As written: whatever valid form is submitted, when the server refuses the
      registration with a message, the page still navigates to '/' and shows no
      error; the message only reaches the context's `error`. */
  lemma SubmitNavigatesDespiteRefusal(p: Page, s: Session, message: string)
    requires Validate(p.form) == NoFieldErrors
    requires message != ""
    ensures var r := HandleSubmit(p, s, Refusing(message));
      && r.registration.Some?
      && r.registration.value.settled == Resolved(Failed(Str(message)))
      && r.navigateTo == Some("/")
      && r.page.serverError == Str("")
  {
    var net := Refusing(message);
    var body := Obj(map["message" := Str(message)]);
    var req := RegisterRequest(Payload(p.form));
    var x := Dispatch(s.client, req, net);
    assert net.api(x.sent[0]) == Answered(Response(422, body));
    assert x.outcome == Rejected(HttpFailure(Some(Response(422, body))));
    assert ErrorMessage(x.outcome.reason) == Str(message);
  }

  /** `handleSubmit` as it evidently means to behave: navigate only when
      `register` reports success, and otherwise show its message. */
  function HandleSubmitChecked(p: Page, s: Session, net: Net): (r: Submission)
    ensures r.page.form == p.form && r.page.fieldErrors == Validate(p.form)
    ensures Validate(p.form) != NoFieldErrors ==>
      r.registration == None && r.navigateTo == None && r.session == s
    ensures Validate(p.form) == NoFieldErrors ==>
      && r.registration == Some(Register(s, Payload(p.form), net))
      && !r.page.loading
      && (r.navigateTo == Some("/") <==> r.registration.value.settled.value.Succeeded?)
      && (r.registration.value.settled.value.Failed? ==>
            r.navigateTo == None && Truthy(r.page.serverError)
            && r.page.serverError == r.registration.value.settled.value.message)
  {
    var errors := Validate(p.form);
    var p1 := p.(serverError := Str(""), fieldErrors := errors);
    if errors != NoFieldErrors then
      Submission(p1, s, None, None)
    else
      var step := Register(s, Payload(p.form), net);
      match step.settled
      case Resolved(Succeeded) => Submission(p1.(loading := false), step.session, Some(step), Some("/"))
      case Resolved(Failed(msg)) =>
        assert Truthy(msg);
        Submission(p1.(serverError := Or(msg, Str(RegisterFallback)), loading := false), step.session, Some(step), None)
      case Rejected(e) =>
        Submission(p1.(serverError := Or(ErrorMessage(e), Str(RegisterFallback)), loading := false),
                   step.session, Some(step), None)
  }
}

=== FILE: storage.dfy ===
/** The browser's `localStorage`, a flat string-to-string store. The application
    uses the keys `token` and `refresh_token`; `clear()` removes every key. */
module Storage {
  import opened Options

  type Store = map<string, string>

  const TokenKey: string := "token"
  const RefreshKey: string := "refresh_token"

  /** `localStorage.getItem(k)`: `None` is the `null` returned for a missing key. */
  function GetItem(st: Store, k: string): Option<string> {
    if k in st then Some(st[k]) else None
  }

  /** `if (localStorage.getItem(k))`: present and not the empty string. */
  predicate HasItem(st: Store, k: string) {
    k in st && st[k] != ""
  }

  /** `localStorage.clear()`. */
  function Clear(st: Store): (r: Store)
    ensures forall k :: GetItem(r, k) == None
  {
    map[]
  }
}
